=== FILE: README.md ===
# Range bookkeeping of the Azure Files connection (azure-storage-fuse)

This project is a Dafny model of the range layer in blobfuse's Azure Files
connection (`component/azstorage/file_share.go`). That layer sits between
POSIX-style writes and the Azure Files range API. The model covers:

- **range-size calculation** (`calculateRangeSize`). It picks the upload range
  size for a whole-file upload from the file size, the 4 MiB per-range limit,
  the 4 TiB per-file limit and the resulting limit of 2^20 ranges per file.
  It is also used by `WriteFromFile` when no block size is configured.
- **path splitting** (`getFileAndDirFromPath`). It turns a share path into a
  directory part and a file name, using `strings.Split`, `strings.Join` and
  `filepath.Base` on `/`.
- **range listing** (`GetFileBlockOffsets`). It turns the service's list of
  (start, end) ranges into a block list. An empty list is marked `SmallFile`.
- **stage and commit** (`StageAndCommit`). This loop walks pending blocks that
  carry Dirty/Truncated flags. It gives truncated blocks zeros as payload,
  uploads dirty blocks, clears flags and stops at the first failed upload.
- **write** (`Write`). An offset write lists the file's ranges and resizes the
  file when the write reaches past the known blocks. It then uploads the data
  once.

The storage service is abstract. A `Service` value holds the answer to the
range listing and two oracles: one says whether a resize succeeds, the other
whether an upload succeeds. Each operation is a pure function that returns the
requests it issued, in order, next to its outcome. Flags are sets of flag names.

Modules (one file each): `Common` (Go `int64` with wrap-around, bytes,
`Option`/`Result`, errors), `Blocks` (block and block list),
`Backend` (requests, the abstract service, the fail-fast discipline),
`PathSplit`, `RangeSize`, `FileShare`.

The model follows the code on these points, even where a reader might expect
otherwise:

- One might expect Truncated to be cleared only after a successful upload. The
  commit loop clears it *before* the upload is attempted, so the flag is gone
  even when that upload then fails.
- A block that is Truncated but not Dirty is never uploaded. Only its flag is
  cleared.
- The zero buffer is a local variable. The block's own `Data` is not replaced,
  so committing the same list again after a failure sends `Data`, not zeros
  (`RetryAfterFailureSendsData`).
- The listing's `End` values are copied into `EndIndex` unchanged. The model
  does not decide whether the service reports them inclusive or exclusive.

## Model

| member | source | states |
|---|---|---|
| Common.WrapInt64 | component/azstorage/file_share.go:893 | Go's int64 `offset+length`: equal to the exact sum when it fits, and congruent to it modulo 2^64 in every case |
| PathSplit.Split | component/azstorage/file_share.go:966 | `strings.Split` on `/` gives at least one piece, and no piece contains `/` |
| PathSplit.SplitPieceCount | component/azstorage/file_share.go:966 | the split gives exactly one more piece than the path has `/` characters |
| PathSplit.JoinSplit | component/azstorage/file_share.go:966-969 | joining the split pieces with `/` gives back the original path (split and join are inverses) |
| PathSplit.DirArrayJoin | component/azstorage/file_share.go:966-969 | joining all pieces but the last gives exactly the text before the last `/`, or "" when there is no `/` |
| PathSplit.BaseOfFilePath | component/azstorage/file_share.go:971 | for a non-empty path not ending in `/`, `filepath.Base` (modelled by `PathSplit.Base`) is the non-empty text after the last `/` |
| PathSplit.FileAndDirFromPath | component/azstorage/file_share.go:961-974 | "" splits into ("", ""); dirPath is the text before the last `/` or ""; for a path not ending in `/` the file name is the non-empty text after the last `/`; when such a path also contains a `/`, dirPath + "/" + fileName rebuilds it |
| PathSplit.TrailingSlashBreaksRebuild | component/azstorage/file_share.go:957-973 | the assumption that file paths do not end in `/` is needed: for such a path dirPath + "/" + fileName never equals the path |
| RangeSize.ClearLow3 | component/azstorage/file_share.go:995-998 | `x & -8` is the largest multiple of 8 not above x; it is non-zero exactly when x is outside [0, 8) |
| RangeSize.CeilDiv | component/azstorage/file_share.go:989 | the ceiling of a/n: the least q with a <= n*q, and never more than a |
| RangeSize.RangeSizeWithin | component/azstorage/file_share.go:977-1012 | over any valid limits: FileTooLarge exactly when the file exceeds the file limit; any error returns size 0; any success returns exactly the maximum range size; a file no bigger than one range always succeeds |
| RangeSize.RangeSizeTooLargeExactly | component/azstorage/file_share.go:989-1006 | when the maximum range size is a multiple of 8, the rounding error happens exactly for files within the file limit that do not fit into maxRanges ranges of the maximum size |
| RangeSize.UnalignedLimitRejectsFittingFile | component/azstorage/file_share.go:995-1006 | without that alignment the rounding can reject a file that fits exactly (2 ranges of 12 bytes, 24-byte file) |
| RangeSize.CalculateRangeSize | component/azstorage/file_share.go:977-1012 | with 4 MiB ranges and a 4 TiB limit: fails, with 0 and FileTooLarge, exactly for files above 4 TiB; every other size gets exactly 4 MiB; the range-size error is unreachable |
| RangeSize.UploadRangeSize | component/azstorage/file_share.go:717-731 | a configured block size is used as is; with none configured, the upload fails exactly for files above 4 TiB and otherwise uses 4 MiB ranges |
| FileShare.ExtentsOfBlocksOf | component/azstorage/file_share.go:931-937 | the blocks built from a listing have exactly the listed extents, in order (the conversion and reading extents back are inverses) |
| FileShare.GetFileBlockOffsets | component/azstorage/file_share.go:913-940 | a failed listing gives an empty list with that error; an empty listing gives an empty list marked SmallFile; otherwise one block per listed range (built by `FileShare.BlocksOf`, the loop at lines 931-937), same extents, same order, no data, no block or list flag |
| FileShare.ZeroFillLength | component/azstorage/file_share.go:850 | Go's int64 `EndIndex-StartIndex`: equal to the exact difference when that fits in int64, and congruent to it modulo 2^64 in every case |
| FileShare.Payload | component/azstorage/file_share.go:849-854 | a truncated block's payload is zero bytes, as many as the int64 difference EndIndex-StartIndex (the exact difference when start <= end and it fits); any other block's payload is its own data |
| FileShare.CommitBlocks | component/azstorage/file_share.go:848-868 | the commit loop keeps every block's extent and data, only ever removes flags, and issues no more requests than there are blocks |
| FileShare.CommitStopsAtFirstFailure | component/azstorage/file_share.go:855-864 | the commit succeeds exactly when no dirty block's upload is rejected; otherwise it returns the answer to the first rejected upload |
| FileShare.CommitUploadsDirtyPrefix | component/azstorage/file_share.go:848-867 | the requests are the uploads of the dirty blocks up to and including the first failing one, in list order, each at the block's StartIndex with its payload |
| FileShare.CommitSettlesPrefix | component/azstorage/file_share.go:849-866 | every block before the first failing upload ends with Dirty and Truncated cleared |
| FileShare.CommitKeepsFailedDirty | component/azstorage/file_share.go:849-864 | the block whose upload failed has lost Truncated but is still Dirty |
| FileShare.CommitLeavesRest | component/azstorage/file_share.go:849-864 | every block after the one whose upload failed is untouched |
| FileShare.StageAndCommit | component/azstorage/file_share.go:836-869 | the commit fails exactly when some dirty block's upload is rejected, and then returns the answer to the first such upload; the requests are the dirty uploads before that block, in order, then its upload; earlier blocks are settled, the failed block has lost Truncated but is still Dirty, later blocks are untouched; on success every dirty block was uploaded and every block is settled; the list flags are kept; the trace is fail-fast |
| FileShare.CommitFailFast | component/azstorage/file_share.go:855-868 | every upload before the last one succeeded, and the commit returns exactly the last upload's answer |
| FileShare.CleanListIsQuiet | component/azstorage/file_share.go:848-868 | a list with no dirty block issues no request and succeeds; its Truncated flags are still cleared |
| FileShare.CommitIsIdempotent | component/azstorage/file_share.go:848-868 | after a successful commit, committing the result again issues no request and succeeds, against any service |
| FileShare.TruncatedOnlyIsNotUploaded | component/azstorage/file_share.go:849-855 | a block flagged only Truncated loses the flag and nothing is uploaded |
| FileShare.DirtyTruncatedUploadsZeros | component/azstorage/file_share.go:849-865 | a Dirty and Truncated block [0,100) is uploaded as 100 zero bytes at offset 0 and ends with no flag |
| FileShare.WrappedLengthIsCommitted | component/azstorage/file_share.go:849-855 | a Truncated block from the int64 maximum down to the int64 minimum has wrapped length 1, is accepted, loses its flag and causes no upload |
| FileShare.NegativeStartUploadsZeros | component/azstorage/file_share.go:849-865 | a Dirty and Truncated block [-8,0) is accepted and uploaded as 8 zero bytes at offset -8 |
| FileShare.RetryAfterFailureSendsData | component/azstorage/file_share.go:849-864 | after the zero-filled upload of a dirty truncated block fails, committing the resulting list again uploads the block's own data instead of zeros |
| FileShare.Write | component/azstorage/file_share.go:872-910 | empty data issues nothing and succeeds; otherwise the range listing comes first, is issued only once, and its failure ends the write; at most one resize is issued; a resize to int64 offset+length is issued exactly when the listing succeeded and the write exceeds the known blocks; the only upload is (offset, data), it is last and comes after any resize; success ends with that upload; the trace is fail-fast |
| FileShare.WriteResizesBeforeUpload | component/azstorage/file_share.go:891-903 | when the write exceeds the known blocks, no upload happens unless a successful resize to offset+length came before it |

## Left out

- The per-path lock in `StageAndCommit` (`rangeLocks.GetLock`, lines 838-840) is left out. It only serialises concurrent calls, and the model is sequential.
- Credential, pipeline and URL setup, listing, attributes, whole-file reads and uploads through the SDK, create/delete/rename, `ChangeMod` and `ChangeOwner` are left out. They are SDK and network plumbing. Only the range-size choice inside `WriteFromFile` is modelled (`UploadRangeSize`).
- `filepath.Join(prefixPath, name)` and building the directory/file URL are left out. Each operation works on one file, and the service is addressed abstractly. The path splitter is modelled on its own.
- `TruncateFile` and `UploadRange` are not modelled as separate operations. Each becomes one request (`Resize`, `UploadRange`) answered by the abstract service. Their errors pass through unchanged.
- Logging, timing and statistics are left out.
- The service's answers are a function of the request alone. The same request therefore always gets the same answer, including two identical uploads within one commit. The real service may accept one and reject the other; time-varying answers are not modelled.
- The block list holds blocks by value, whereas Go's `BlockList` holds pointers and clears flags through them. A list that holds the same pointer twice is not modelled. Go's second visit sees Dirty already cleared and does not upload again, while the model treats the two entries as independent blocks.
- FileShare.Write: the answer of `BlockOffsetList.FindBlocksToModify` is a parameter (`exceeds`). That function lives in the `common` package, which is not part of this model.
- RangeSize.CeilDiv: `math.Ceil(float64(a)/float64(n))` is modelled as exact integer ceiling division. For the service's constants the divisor is 2^20 and sizes are below 2^53, so the float quotient is exact. For arbitrary limits in `RangeSizeWithin` the float rounding is not modelled.
- RangeSize.ClearLow3: `x & -8` is modelled as `x - x % 8` (Euclidean remainder), which clears the three low bits of a two's-complement integer. It is not derived from a 64-bit bit-vector operation.
- RangeSize.RangeSizeWithin: limits must satisfy 0 < maxRangeBytes <= maxFileBytes <= the int64 maximum minus 7, and 0 < maxRanges. The first bound keeps the range size positive, the `- 7` keeps the rounding's `+ 7` inside int64, and a positive range count keeps `CeilDiv` from dividing by zero. The source's constants satisfy all of these.
- FileShare.CommitBlocks: its own contract states only the shape of the result. The full behaviour is proved in the lemmas that follow it (`CommitStopsAtFirstFailure`, `CommitUploadsDirtyPrefix`, `CommitSettlesPrefix`, `CommitLeavesRest`).
- FileShare.StageAndCommit: a truncated block must have a non-negative zero-fill length, computed as Go computes `EndIndex-StartIndex` in int64, with wrap-around (`ZeroFillLength`). A negative length makes `make` panic, and the panic is not modelled. The requirement covers every block of the list, so the model also refuses a list whose only such block comes after the first failed upload. Go returns that upload's error before reaching the block, without a panic.
- FileShare.Payload: Go's `make` also panics for a length above the runtime's allocation limit. The model has no such limit and treats these blocks as ordinary zero fills.

=== FILE: backend.dfy ===
/** The file-share service as the range layer sees it: the three requests it
    issues against one file, an abstract service that answers them, and the
    fail-fast discipline every operation of the layer follows when it issues
    a sequence of requests. */
module Backend {
  import opened Common

  /** One (start, end) pair of the service's range listing, as reported. */
  datatype StorageRange = StorageRange(start: Int64, end: Int64)

  /** The requests the range layer sends for one file: list its ranges,
      resize it, upload bytes at an offset. */
  datatype Call =
    | GetRangeList
    | Resize(size: Int64)
    | UploadRange(offset: Int64, data: seq<Byte>)

  /** An abstract service for one file: the answer to a range listing, and
      whether a resize or an upload of given arguments succeeds (`None`) or
      fails with an error. The answers depend on the request's arguments
      alone, so the same request always gets the same answer. */
  datatype Service = Service(
    rangeList: Result<seq<StorageRange>>,
    resize: Int64 -> Option<Error>,
    upload: (Int64, seq<Byte>) -> Option<Error>)

  /** The service's answer to one request: `None` for success. */
  function Answer(s: Service, c: Call): (a: Option<Error>)
  {
    match c
    case GetRangeList => if s.rangeList.Failure? then Some(s.rangeList.error) else None
    case Resize(n) => s.resize(n)
    case UploadRange(o, d) => s.upload(o, d)
  }

  /** A trace of requests ended by an operation that reported `err` is
      fail-fast when every request but the last succeeded and the operation
      reported exactly the last request's answer (success when it issued
      none): the first failure is passed up unchanged and ends the operation. */
  predicate FailFast(s: Service, calls: seq<Call>, err: Option<Error>)
  {
    && (forall i :: 0 <= i < |calls| - 1 ==> Answer(s, calls[i]).None?)
    && (if |calls| == 0 then err.None? else err == Answer(s, calls[|calls| - 1]))
  }
}

=== FILE: blocks.dfy ===
/** The range bookkeeping types the file-share layer works on: a block of a
    remote file with its Dirty/Truncated flags, and the ordered block list
    with its SmallFile flag. The source takes these from its `common`
    package (`common.Block`, `common.BlockOffsetList`); only the parts the
    file-share code reads or writes are modelled, and the flag bitmaps are
    sets of flag names. */
module Blocks {
  import opened Common

  /** Per-block flags: Dirty means "local content not yet uploaded",
      Truncated means "created by extending the file; its content is zeros". */
  datatype BlockFlag = DirtyBlock | TruncatedBlock

  /** One contiguous extent of a remote file. `data` is the pending content,
      if any. */
  datatype Block = Block(startIndex: Int64, endIndex: Int64, data: seq<Byte>, flags: set<BlockFlag>)
  {
    predicate Dirty() { DirtyBlock in flags }

    predicate Truncated() { TruncatedBlock in flags }

    /** The block with the given flag cleared and everything else kept. */
    function Clear(f: BlockFlag): (b: Block)
      ensures b.flags == flags - {f}
      ensures b.startIndex == startIndex && b.endIndex == endIndex && b.data == data
    {
      this.(flags := flags - {f})
    }
  }

  /** List-level flags; SmallFile marks a file with no ranges on the backend. */
  datatype ListFlag = SmallFile

  /** An ordered list of blocks plus list-level flags. */
  datatype BlockOffsetList = BlockOffsetList(blockList: seq<Block>, flags: set<ListFlag>)
  {
    predicate IsSmallFile() { SmallFile in flags }
  }
}

=== FILE: common.dfy ===
/** Shared vocabulary of the model: Go's fixed-width integers, bytes,
    optional values, error results and the error taxonomy of the file-share
    range layer. */
module Common {

  const MinInt64: int := -0x8000_0000_0000_0000
  const MaxInt64: int := 0x7FFF_FFFF_FFFF_FFFF
  const TwoTo64: int := 0x1_0000_0000_0000_0000

  /** Go's `int64`: the values the source's offsets, sizes and indices range over. */
  type Int64 = x: int | MinInt64 <= x <= MaxInt64

  /** Go's `byte`. */
  type Byte = b: int | 0 <= b < 256

  /** Two's-complement wrap-around of an exact sum or difference into `int64`,
      which is what Go's `+` and `-` on `int64` compute. */
  function WrapInt64(x: int): (r: Int64)
    ensures MinInt64 <= x <= MaxInt64 ==> r == x
    ensures (x - r) % TwoTo64 == 0
  {
    var m := x % TwoTo64;
    if m > MaxInt64 then m - TwoTo64 else m
  }

  datatype Option<+T> = None | Some(value: T)

  /** The errors the range layer can report: the two it raises itself when
      sizing ranges, and an opaque pass-through of a backend failure. */
  datatype Error =
    | FileTooLarge              // the file exceeds the service's maximum file size
    | RangeSizeTooLarge         // no legal range size fits the per-file range count
    | BackendFailure(code: int) // any failure reported by the storage service

  /** A value or the error that prevented it. */
  datatype Result<+T> = Success(value: T) | Failure(error: Error)
}

=== FILE: file_share.dfy ===
/** The range reconciliation layer of the file-share connection: building a
    block list from the service's range listing, committing a list of pending
    blocks, and writing a buffer at an offset. Each operation is a pure
    function of an abstract `Service` and reports the requests it issued, in
    order, next to its outcome. */
module FileShare {
  import opened Common
  import opened Blocks
  import opened Backend

  // ---------------------------------------------------------------------
  // Range listing -> block list (GetFileBlockOffsets)
  // ---------------------------------------------------------------------

  /** A block list and the error that came with it, as Go's
      `(*common.BlockOffsetList, error)` pair. */
  datatype Offsets = Offsets(list: BlockOffsetList, err: Option<Error>)

  /** One flag-less, data-less block per listed range, in listing order. */
  function BlocksOf(ranges: seq<StorageRange>): (blocks: seq<Block>)
    ensures |blocks| == |ranges|
    ensures forall i :: 0 <= i < |blocks| ==> blocks[i].flags == {} && blocks[i].data == []
  {
    if |ranges| == 0 then []
    else [Block(ranges[0].start, ranges[0].end, [], {})] + BlocksOf(ranges[1..])
  }

  /** The extents a block list describes: the inverse view of `BlocksOf`. */
  function Extents(blocks: seq<Block>): (ranges: seq<StorageRange>)
    ensures |ranges| == |blocks|
  {
    if |blocks| == 0 then []
    else [StorageRange(blocks[0].startIndex, blocks[0].endIndex)] + Extents(blocks[1..])
  }

  /** Converting a listing to blocks loses no extent and reorders nothing. */
  lemma {:induction false} ExtentsOfBlocksOf(ranges: seq<StorageRange>)
    ensures Extents(BlocksOf(ranges)) == ranges
  {
    if |ranges| > 0 {
      ExtentsOfBlocksOf(ranges[1..]);
      assert BlocksOf(ranges)[1..] == BlocksOf(ranges[1..]);
    }
  }

  /** `GetFileBlockOffsets`: a failed listing yields an empty list and the
      error; an empty listing yields an empty list marked SmallFile; otherwise
      one unflagged block per listed range, with the same extents in the same
      order, and no list flag. */
  function GetFileBlockOffsets(s: Service): (r: Offsets)
    ensures s.rangeList.Failure? ==> r == Offsets(BlockOffsetList([], {}), Some(s.rangeList.error))
    ensures s.rangeList.Success? ==> r.err.None?
    ensures s.rangeList.Success? ==> (r.list.IsSmallFile() <==> |s.rangeList.value| == 0)
    ensures s.rangeList.Success? ==> r.list.flags <= {SmallFile}
    ensures s.rangeList.Success? ==> Extents(r.list.blockList) == s.rangeList.value
    ensures forall i :: 0 <= i < |r.list.blockList| ==>
              !r.list.blockList[i].Dirty() && !r.list.blockList[i].Truncated() &&
              r.list.blockList[i].data == []
    ensures FailFast(s, [GetRangeList], r.err)
  {
    match s.rangeList
    case Failure(e) => Offsets(BlockOffsetList([], {}), Some(e))
    case Success(ranges) =>
      if |ranges| == 0 then Offsets(BlockOffsetList([], {SmallFile}), None)
      else
        ExtentsOfBlocksOf(ranges);
        Offsets(BlockOffsetList(BlocksOf(ranges), {}), None)
  }

  // ---------------------------------------------------------------------
  // Committing pending blocks (StageAndCommit)
  // ---------------------------------------------------------------------

  /** `n` zero bytes: the content of a truncated block. */
  function Zeros(n: nat): (z: seq<Byte>)
    ensures |z| == n && forall i :: 0 <= i < n ==> z[i] == 0
  {
    seq(n, _ => 0)
  }

  /** The length Go computes for a truncated block's zero buffer:
      `EndIndex - StartIndex` in int64 arithmetic, wrapping on overflow. */
  function ZeroFillLength(b: Block): (n: Int64)
    ensures MinInt64 <= b.endIndex - b.startIndex <= MaxInt64 ==> n == b.endIndex - b.startIndex
    ensures (b.endIndex - b.startIndex - n) % TwoTo64 == 0
  {
    WrapInt64(b.endIndex - b.startIndex)
  }

  /** A block the commit loop can handle: Go's `make` panics on a negative
      length, so a truncated block needs a non-negative int64 length. */
  predicate Committable(b: Block)
  {
    b.Truncated() ==> ZeroFillLength(b) >= 0
  }

  predicate AllCommittable(blocks: seq<Block>)
  {
    forall i :: 0 <= i < |blocks| ==> Committable(blocks[i])
  }

  /** What the commit loop sends for a block: zeros over its whole extent when
      it is truncated, its own data otherwise. */
  function Payload(b: Block): (p: seq<Byte>)
    requires Committable(b)
    ensures b.Truncated() ==> |p| == ZeroFillLength(b) && forall i :: 0 <= i < |p| ==> p[i] == 0
    ensures b.Truncated() && b.startIndex <= b.endIndex && b.endIndex - b.startIndex <= MaxInt64 ==>
              |p| == b.endIndex - b.startIndex
    ensures !b.Truncated() ==> p == b.data
  {
    if b.Truncated() then Zeros(ZeroFillLength(b)) else b.data
  }

  /** The upload request for a block: its payload at its start index. */
  function UploadOf(b: Block): (c: Call)
    requires Committable(b)
  {
    UploadRange(b.startIndex, Payload(b))
  }

  /** The block's upload is attempted and rejected by the service. */
  predicate UploadFails(s: Service, b: Block)
    requires Committable(b)
  {
    b.Dirty() && Answer(s, UploadOf(b)).Some?
  }

  /** A block after it has been committed: both pending flags cleared. */
  function Settle(b: Block): (c: Block)
    ensures !c.Dirty() && !c.Truncated()
  {
    b.(flags := b.flags - {DirtyBlock, TruncatedBlock})
  }

  /** The upload requests for the dirty blocks, in list order. */
  function DirtyUploads(blocks: seq<Block>): (calls: seq<Call>)
    requires AllCommittable(blocks)
    ensures |calls| <= |blocks|
  {
    if |blocks| == 0 then []
    else (if blocks[0].Dirty() then [UploadOf(blocks[0])] else []) + DirtyUploads(blocks[1..])
  }

  /** Where the commit loop stops: the first block whose upload fails, or the
      length of the list when every upload succeeds. */
  function FirstFailure(s: Service, blocks: seq<Block>): (k: nat)
    requires AllCommittable(blocks)
    ensures k <= |blocks|
    ensures forall i :: 0 <= i < k ==> !UploadFails(s, blocks[i])
    ensures k < |blocks| ==> UploadFails(s, blocks[k])
  {
    if |blocks| == 0 then 0
    else if UploadFails(s, blocks[0]) then 0
    else 1 + FirstFailure(s, blocks[1..])
  }

  /** Outcome of a commit: the blocks with their flags as left behind, the
      requests issued, and the error returned. */
  datatype Commit = Commit(blocks: seq<Block>, calls: seq<Call>, err: Option<Error>)

  /** The commit loop over a list of blocks, in list order: a truncated
      block loses its Truncated flag and is given zeros as payload; a dirty
      block is uploaded at its start index and, on success, loses its Dirty
      flag; the first failed upload ends the loop. Block data never changes. */
  function CommitBlocks(s: Service, blocks: seq<Block>): (r: Commit)
    requires AllCommittable(blocks)
    ensures |r.blocks| == |blocks|
    ensures |r.calls| <= |blocks|
    ensures forall i :: 0 <= i < |r.blocks| ==>
              r.blocks[i].startIndex == blocks[i].startIndex && r.blocks[i].endIndex == blocks[i].endIndex &&
              r.blocks[i].data == blocks[i].data && r.blocks[i].flags <= blocks[i].flags
    decreases |blocks|
  {
    if |blocks| == 0 then Commit([], [], None)
    else
      var b := blocks[0];
      var staged := if b.Truncated() then b.Clear(TruncatedBlock) else b;
      if b.Dirty() then
        var c := UploadOf(b);
        match Answer(s, c)
        case Some(e) => Commit([staged] + blocks[1..], [c], Some(e))
        case None =>
          var rest := CommitBlocks(s, blocks[1..]);
          Commit([staged.Clear(DirtyBlock)] + rest.blocks, [c] + rest.calls, rest.err)
      else
        var rest := CommitBlocks(s, blocks[1..]);
        Commit([staged] + rest.blocks, rest.calls, rest.err)
  }

  /** One step of the commit loop: a failing head block ends the loop; any
      other head block is settled and the loop continues with the tail. */
  lemma CommitUnfold(s: Service, blocks: seq<Block>)
    requires AllCommittable(blocks) && |blocks| > 0
    ensures var b := blocks[0];
            var r := CommitBlocks(s, blocks);
            UploadFails(s, b) ==>
              r == Commit([b.Clear(TruncatedBlock)] + blocks[1..], [UploadOf(b)], Answer(s, UploadOf(b)))
    ensures var b := blocks[0];
            var r := CommitBlocks(s, blocks);
            var rest := CommitBlocks(s, blocks[1..]);
            !UploadFails(s, b) ==>
              && r.calls == (if b.Dirty() then [UploadOf(b)] else []) + rest.calls
              && r.blocks == [Settle(b)] + rest.blocks
              && r.err == rest.err
  {
    var b := blocks[0];
    StagedBlockSettles(b);
    if !b.Truncated() {
      assert b.Clear(TruncatedBlock) == b;
    }
  }

  /** How the stopping point and the dirty uploads of a list relate to those
      of its tail when the head block does not fail. */
  lemma CommitStep(s: Service, blocks: seq<Block>)
    requires AllCommittable(blocks) && |blocks| > 0 && !UploadFails(s, blocks[0])
    ensures FirstFailure(s, blocks) == 1 + FirstFailure(s, blocks[1..])
    ensures var k := FirstFailure(s, blocks[1..]);
            DirtyUploads(blocks[..k + 1]) ==
              (if blocks[0].Dirty() then [UploadOf(blocks[0])] else []) + DirtyUploads(blocks[1..][..k])
  {
    var k := FirstFailure(s, blocks[1..]);
    assert blocks[..k + 1][1..] == blocks[1..][..k];
  }

  /** The commit succeeds exactly when no dirty block's upload is rejected;
      otherwise it returns the service's answer to the first rejected upload. */
  lemma {:induction false} CommitStopsAtFirstFailure(s: Service, blocks: seq<Block>)
    requires AllCommittable(blocks)
    ensures var r := CommitBlocks(s, blocks);
            var k := FirstFailure(s, blocks);
            && (r.err.None? <==> k == |blocks|)
            && (k < |blocks| ==> r.err == Answer(s, UploadOf(blocks[k])))
    decreases |blocks|
  {
    if |blocks| > 0 && !UploadFails(s, blocks[0]) {
      CommitStopsAtFirstFailure(s, blocks[1..]);
      CommitStep(s, blocks);
    }
  }

  /** The requests a commit issues: the uploads of the dirty blocks before the
      first failing one, in list order, then the failing upload itself. */
  lemma {:induction false} CommitUploadsDirtyPrefix(s: Service, blocks: seq<Block>)
    requires AllCommittable(blocks)
    ensures var r := CommitBlocks(s, blocks);
            var k := FirstFailure(s, blocks);
            r.calls == DirtyUploads(blocks[..k]) + (if k < |blocks| then [UploadOf(blocks[k])] else [])
    decreases |blocks|
  {
    if |blocks| > 0 {
      if UploadFails(s, blocks[0]) {
        CommitUnfold(s, blocks);
        assert blocks[..0] == [];
      } else {
        var tailBlocks := blocks[1..];
        var k' := FirstFailure(s, tailBlocks);
        var k := k' + 1;
        var head := if blocks[0].Dirty() then [UploadOf(blocks[0])] else [];
        var last := if k < |blocks| then [UploadOf(blocks[k])] else [];
        var prefix := DirtyUploads(tailBlocks[..k']);
        assert FirstFailure(s, blocks) == k && DirtyUploads(blocks[..k]) == head + prefix by {
          CommitStep(s, blocks);
        }
        assert CommitBlocks(s, tailBlocks).calls == prefix + last by {
          CommitUploadsDirtyPrefix(s, tailBlocks);
          if k < |blocks| {
            assert tailBlocks[k'] == blocks[k];
          }
        }
        assert CommitBlocks(s, blocks).calls == head + CommitBlocks(s, tailBlocks).calls by {
          CommitUnfold(s, blocks);
        }
        assert head + (prefix + last) == (head + prefix) + last;
      }
    }
  }

  /** A block that was staged and then either uploaded or skipped for not
      being dirty is settled. */
  lemma StagedBlockSettles(b: Block)
    ensures var staged := if b.Truncated() then b.Clear(TruncatedBlock) else b;
            (b.Dirty() ==> staged.Clear(DirtyBlock) == Settle(b)) &&
            (!b.Dirty() ==> staged == Settle(b))
  {
    var staged := if b.Truncated() then b.Clear(TruncatedBlock) else b;
    if b.Dirty() {
      assert staged.Clear(DirtyBlock).flags == b.flags - {DirtyBlock, TruncatedBlock};
    } else {
      assert staged.flags == b.flags - {DirtyBlock, TruncatedBlock};
    }
  }

  /** Every block before the first failing one is settled by the commit. */
  lemma {:induction false} CommitSettlesPrefix(s: Service, blocks: seq<Block>)
    requires AllCommittable(blocks)
    ensures var r := CommitBlocks(s, blocks);
            forall i :: 0 <= i < FirstFailure(s, blocks) ==> r.blocks[i] == Settle(blocks[i])
    decreases |blocks|
  {
    if |blocks| > 0 && !UploadFails(s, blocks[0]) {
      var r := CommitBlocks(s, blocks);
      var rest := CommitBlocks(s, blocks[1..]);
      CommitUnfold(s, blocks);
      CommitSettlesPrefix(s, blocks[1..]);
      CommitStep(s, blocks);
      forall i | 0 < i < FirstFailure(s, blocks) ensures r.blocks[i] == Settle(blocks[i]) {
        assert r.blocks[i] == rest.blocks[i - 1];
        assert blocks[i] == blocks[1..][i - 1];
      }
    }
  }

  /** The block whose upload failed has lost Truncated but is still Dirty. */
  lemma {:induction false} CommitKeepsFailedDirty(s: Service, blocks: seq<Block>)
    requires AllCommittable(blocks)
    ensures var r := CommitBlocks(s, blocks);
            var k := FirstFailure(s, blocks);
            k < |blocks| ==> r.blocks[k] == blocks[k].Clear(TruncatedBlock) && r.blocks[k].Dirty()
    decreases |blocks|
  {
    if |blocks| > 0 {
      CommitUnfold(s, blocks);
      if !UploadFails(s, blocks[0]) {
        CommitKeepsFailedDirty(s, blocks[1..]);
        CommitStep(s, blocks);
        var k := FirstFailure(s, blocks);
        if k < |blocks| {
          assert CommitBlocks(s, blocks).blocks[k] == CommitBlocks(s, blocks[1..]).blocks[k - 1];
          assert blocks[k] == blocks[1..][k - 1];
        }
      }
    }
  }

  /** Every block after the one whose upload failed is left as it was. */
  lemma {:induction false} CommitLeavesRest(s: Service, blocks: seq<Block>)
    requires AllCommittable(blocks)
    ensures var r := CommitBlocks(s, blocks);
            forall i :: FirstFailure(s, blocks) < i < |blocks| ==> r.blocks[i] == blocks[i]
    decreases |blocks|
  {
    if |blocks| > 0 {
      var r := CommitBlocks(s, blocks);
      var tailBlocks := blocks[1..];
      if UploadFails(s, blocks[0]) {
        assert r.blocks[1..] == tailBlocks by {
          CommitUnfold(s, blocks);
        }
        forall i | 0 < i < |blocks| ensures r.blocks[i] == blocks[i] {
          assert r.blocks[i] == r.blocks[1..][i - 1];
        }
      } else {
        var rest := CommitBlocks(s, tailBlocks);
        var k' := FirstFailure(s, tailBlocks);
        assert FirstFailure(s, blocks) == k' + 1 by {
          CommitStep(s, blocks);
        }
        assert r.blocks[1..] == rest.blocks by {
          CommitUnfold(s, blocks);
        }
        assert forall j :: k' < j < |tailBlocks| ==> rest.blocks[j] == tailBlocks[j] by {
          CommitLeavesRest(s, tailBlocks);
        }
        forall i | k' + 1 < i < |blocks| ensures r.blocks[i] == blocks[i] {
          assert r.blocks[i] == r.blocks[1..][i - 1];
          assert blocks[i] == tailBlocks[i - 1];
        }
      }
    }
  }

  /** The outcome of `StageAndCommit`: the block list as left behind, the
      requests issued and the error returned. */
  datatype Staged = Staged(list: BlockOffsetList, calls: seq<Call>, err: Option<Error>)

  /** `StageAndCommit` on a block list (the per-path lock only serialises
      calls and is not modelled). With `k` the first block whose upload the
      service rejects: the commit fails exactly when there is such a block,
      and then returns the answer to its upload; the requests are the uploads
      of the dirty blocks before `k`, in order, followed by `k`'s upload;
      blocks before `k` are settled, block `k` has lost Truncated but stays
      Dirty, and later blocks are untouched. On success every dirty block was
      uploaded and every block is settled. The list's own flags are kept. */
  function StageAndCommit(s: Service, bol: BlockOffsetList): (r: Staged)
    requires AllCommittable(bol.blockList)
    ensures r.list.flags == bol.flags && |r.list.blockList| == |bol.blockList|
    ensures r.err.None? ==> r.calls == DirtyUploads(bol.blockList)
    ensures r.err.None? ==> forall i :: 0 <= i < |bol.blockList| ==> r.list.blockList[i] == Settle(bol.blockList[i])
    ensures var k := FirstFailure(s, bol.blockList);
            (r.err.Some? <==> k < |bol.blockList|) &&
            (k < |bol.blockList| ==>
               && r.err == Answer(s, UploadOf(bol.blockList[k]))
               && r.calls == DirtyUploads(bol.blockList[..k]) + [UploadOf(bol.blockList[k])]
               && r.list.blockList[k] == bol.blockList[k].Clear(TruncatedBlock)
               && r.list.blockList[k].Dirty())
    ensures var k := FirstFailure(s, bol.blockList);
            forall i :: 0 <= i < |bol.blockList| ==>
              (i < k ==> r.list.blockList[i] == Settle(bol.blockList[i])) &&
              (k < i ==> r.list.blockList[i] == bol.blockList[i])
    ensures FailFast(s, r.calls, r.err)
  {
    var c := CommitBlocks(s, bol.blockList);
    CommitStopsAtFirstFailure(s, bol.blockList);
    CommitUploadsDirtyPrefix(s, bol.blockList);
    CommitSettlesPrefix(s, bol.blockList);
    CommitKeepsFailedDirty(s, bol.blockList);
    CommitLeavesRest(s, bol.blockList);
    CommitFailFast(s, bol.blockList);
    assert bol.blockList[..|bol.blockList|] == bol.blockList;
    Staged(bol.(blockList := c.blocks), c.calls, c.err)
  }

  /** Every commit is fail-fast: all uploads but the last succeeded, and the
      commit returns the last upload's answer. */
  lemma {:induction false} CommitFailFast(s: Service, blocks: seq<Block>)
    requires AllCommittable(blocks)
    ensures var r := CommitBlocks(s, blocks); FailFast(s, r.calls, r.err)
    decreases |blocks|
  {
    if |blocks| > 0 {
      CommitFailFast(s, blocks[1..]);
    }
  }

  /** A list without dirty blocks produces no upload and succeeds; its
      truncated flags are still cleared. */
  lemma {:induction false} CleanListIsQuiet(s: Service, blocks: seq<Block>)
    requires AllCommittable(blocks)
    requires forall i :: 0 <= i < |blocks| ==> !blocks[i].Dirty()
    ensures var r := CommitBlocks(s, blocks);
            r.calls == [] && r.err.None? &&
            forall i :: 0 <= i < |blocks| ==> r.blocks[i] == blocks[i].Clear(TruncatedBlock)
    decreases |blocks|
  {
    if |blocks| > 0 {
      CleanListIsQuiet(s, blocks[1..]);
    }
  }

  /** After a successful commit nothing is pending: committing the result
      again, against any service, issues no request and succeeds. */
  lemma CommitIsIdempotent(s: Service, s': Service, blocks: seq<Block>)
    requires AllCommittable(blocks)
    requires CommitBlocks(s, blocks).err.None?
    ensures var again := CommitBlocks(s', CommitBlocks(s, blocks).blocks);
            again.calls == [] && again.err.None?
  {
    var r := CommitBlocks(s, blocks);
    CommitStopsAtFirstFailure(s, blocks);
    CommitSettlesPrefix(s, blocks);
    CleanListIsQuiet(s', r.blocks);
  }

  /** A block that is only Truncated is zero-filled locally and loses the flag,
      but nothing is uploaded for it. */
  lemma TruncatedOnlyIsNotUploaded(s: Service)
    ensures var b := Block(0, 100, [], {TruncatedBlock});
            CommitBlocks(s, [b]) == Commit([b.(flags := {})], [], None)
  {
    var b := Block(0, 100, [], {TruncatedBlock});
    assert b.flags - {TruncatedBlock} == {};
    assert [b][1..] == [];
  }

  /** A block that is Dirty and Truncated is uploaded as zeros over its extent
      and ends with no flag set. */
  lemma DirtyTruncatedUploadsZeros(s: Service)
    requires s.upload(0, Zeros(100)).None?
    ensures var b := Block(0, 100, [], {DirtyBlock, TruncatedBlock});
            CommitBlocks(s, [b]) == Commit([b.(flags := {})], [UploadRange(0, Zeros(100))], None)
  {
    var b := Block(0, 100, [], {DirtyBlock, TruncatedBlock});
    assert b.flags - {TruncatedBlock} - {DirtyBlock} == {};
  }

  /** A truncated block with a negative start is committed like any other:
      its zero fill covers the whole extent and is uploaded at the start. */
  lemma NegativeStartUploadsZeros(s: Service)
    requires s.upload(-8, Zeros(8)).None?
    ensures var b := Block(-8, 0, [], {DirtyBlock, TruncatedBlock});
            Committable(b) &&
            CommitBlocks(s, [b]) == Commit([b.(flags := {})], [UploadRange(-8, Zeros(8))], None)
  {
    var b := Block(-8, 0, [], {DirtyBlock, TruncatedBlock});
    assert b.flags - {TruncatedBlock} - {DirtyBlock} == {};
  }

  /** A truncated block whose end lies more than 2^63 below its start gets a
      small positive length once the int64 difference wraps; it is zero-filled
      locally, loses the flag, and, not being dirty, causes no upload. */
  lemma WrappedLengthIsCommitted(s: Service)
    ensures var b := Block(MaxInt64, MinInt64, [], {TruncatedBlock});
            ZeroFillLength(b) == 1 && Committable(b) &&
            CommitBlocks(s, [b]) == Commit([b.(flags := {})], [], None)
  {
    var b := Block(MaxInt64, MinInt64, [], {TruncatedBlock});
    assert b.flags - {TruncatedBlock} == {};
    assert [b][1..] == [];
  }

  /** The zero fill is not recorded in the block: once an upload of a dirty
      truncated block has failed, committing the same list again sends the
      block's own data instead of zeros. */
  lemma RetryAfterFailureSendsData(s: Service, s': Service)
    requires s.upload(0, Zeros(4)).Some?
    ensures var b := Block(0, 4, [], {DirtyBlock, TruncatedBlock});
            var first := CommitBlocks(s, [b]);
            first.calls == [UploadRange(0, Zeros(4))] && first.err.Some? &&
            CommitBlocks(s', first.blocks).calls == [UploadRange(0, [])]
  {
    var b := Block(0, 4, [], {DirtyBlock, TruncatedBlock});
    var first := CommitBlocks(s, [b]);
    assert first.blocks == [b.Clear(TruncatedBlock)];
  }

  // ---------------------------------------------------------------------
  // Writing a buffer at an offset (Write)
  // ---------------------------------------------------------------------

  /** The requests a write issued and the error it returned. */
  datatype WriteOutcome = WriteOutcome(calls: seq<Call>, err: Option<Error>)

  /** `Write`: nothing to do for empty data; otherwise list the file's ranges,
      resize the file to `offset + len(data)` (int64 arithmetic) when the
      write reaches past the known blocks, then upload the data at the
      offset. The first failure ends the write and is returned unchanged.
      `exceeds` is the answer the block list gives to "does this write reach
      past the known blocks". */
  function Write(s: Service, offset: Int64, data: seq<Byte>,
                 exceeds: (BlockOffsetList, Int64, Int64) -> bool): (r: WriteOutcome)
    requires |data| <= MaxInt64
    ensures |data| == 0 ==> r == WriteOutcome([], None)
    ensures |data| > 0 ==> 1 <= |r.calls| <= 3 && r.calls[0] == GetRangeList
    ensures forall i :: 0 < i < |r.calls| ==> !r.calls[i].GetRangeList?
    ensures forall i, j :: 0 <= i < |r.calls| && 0 <= j < |r.calls| && r.calls[i].Resize? && r.calls[j].Resize? ==> i == j
    ensures |data| > 0 && s.rangeList.Failure? ==> r == WriteOutcome([GetRangeList], Some(s.rangeList.error))
    ensures (exists i :: 0 <= i < |r.calls| && r.calls[i].Resize?) <==>
              |data| > 0 && s.rangeList.Success? &&
              exceeds(GetFileBlockOffsets(s).list, offset, |data|)
    ensures forall i :: 0 <= i < |r.calls| && r.calls[i].Resize? ==>
              r.calls[i].size == WrapInt64(offset + |data|) &&
              (offset + |data| <= MaxInt64 ==> r.calls[i].size == offset + |data|)
    ensures forall i :: 0 <= i < |r.calls| && r.calls[i].UploadRange? ==>
              r.calls[i] == UploadRange(offset, data) && i == |r.calls| - 1
    ensures forall i, j ::
              (0 <= i < |r.calls| && 0 <= j < |r.calls| && r.calls[i].Resize? && r.calls[j].UploadRange?) ==> i < j
    ensures r.err.None? && |data| > 0 ==> r.calls[|r.calls| - 1] == UploadRange(offset, data)
    ensures FailFast(s, r.calls, r.err)
  {
    if |data| == 0 then WriteOutcome([], None)
    else
      var length: Int64 := |data|;
      var fileOffsets := GetFileBlockOffsets(s);
      if fileOffsets.err.Some? then WriteOutcome([GetRangeList], fileOffsets.err)
      else
        var upload := UploadRange(offset, data);
        if exceeds(fileOffsets.list, offset, length) then
          var resize := Resize(WrapInt64(offset + length));
          if Answer(s, resize).Some? then
            assert [GetRangeList, resize][1].Resize?;
            WriteOutcome([GetRangeList, resize], Answer(s, resize))
          else
            assert [GetRangeList, resize, upload][1].Resize?;
            WriteOutcome([GetRangeList, resize, upload], Answer(s, upload))
        else WriteOutcome([GetRangeList, upload], Answer(s, upload))
  }

  /** When the write reaches past the known blocks, no byte is uploaded unless
      the file was first resized, successfully, to cover it. */
  lemma WriteResizesBeforeUpload(s: Service, offset: Int64, data: seq<Byte>,
                                 exceeds: (BlockOffsetList, Int64, Int64) -> bool)
    requires |data| <= MaxInt64
    requires exceeds(GetFileBlockOffsets(s).list, offset, |data|)
    ensures var r := Write(s, offset, data, exceeds);
            forall j :: 0 <= j < |r.calls| && r.calls[j].UploadRange? ==>
              exists i :: 0 <= i < j && r.calls[i] == Resize(WrapInt64(offset + |data|)) &&
                          Answer(s, r.calls[i]).None?
  {
    var r := Write(s, offset, data, exceeds);
    if |r.calls| == 3 {
      assert r.calls[1] == Resize(WrapInt64(offset + |data|));
    }
  }
}

=== FILE: path_split.dfy ===
/** Splitting a share path into the directory part and the file name, as
    `getFileAndDirFromPath` does with `strings.Split`, `strings.Join` and
    `filepath.Base` (Unix separator `/`). */
module PathSplit {

  /** `strings.Split(s, "/")`: the pieces between separators, always at least one. */
  function Split(s: string): (parts: seq<string>)
    ensures |parts| >= 1
    ensures forall i :: 0 <= i < |parts| ==> '/' !in parts[i]
    decreases |s|
  {
    if |s| == 0 then [""]
    else
      var rest := Split(s[1..]);
      assert s == [s[0]] + s[1..];
      if s[0] == '/' then [""] + rest
      else
        assert '/' !in [s[0]] + rest[0];
        [[s[0]] + rest[0]] + rest[1..]
  }

  /** `strings.Join(parts, "/")`. */
  function Join(parts: seq<string>): (s: string)
  {
    if |parts| == 0 then ""
    else if |parts| == 1 then parts[0]
    else parts[0] + "/" + Join(parts[1..])
  }

  /** Index of the last `/` in `s`, or -1 when there is none. */
  function LastSlash(s: string): (k: int)
    ensures -1 <= k < |s|
    ensures k >= 0 ==> s[k] == '/'
    ensures forall i :: k < i < |s| ==> s[i] != '/'
  {
    if |s| == 0 then -1
    else if s[|s| - 1] == '/' then |s| - 1
    else LastSlash(s[..|s| - 1])
  }

  /** `s` with every trailing `/` removed. */
  function TrimTrailingSlashes(s: string): (t: string)
    ensures t <= s
    ensures |t| > 0 ==> t[|t| - 1] != '/'
    ensures forall i :: |t| <= i < |s| ==> s[i] == '/'
  {
    if |s| > 0 && s[|s| - 1] == '/' then TrimTrailingSlashes(s[..|s| - 1]) else s
  }

  /** `filepath.Base` on Unix: the last element after trailing slashes are
      removed; "." for the empty path and "/" for a path of slashes only. */
  function Base(path: string): (name: string)
    ensures name != ""
  {
    if path == "" then "."
    else
      var t := TrimTrailingSlashes(path);
      var elem := t[LastSlash(t) + 1..];
      if elem == "" then "/" else elem
  }

  /** The file name and directory part of a path. */
  datatype FileAndDir = FileAndDir(fileName: string, dirPath: string)

  /** `getFileAndDirFromPath`: the directory part is everything before the
      last `/` (nothing when there is none); the file name is the path's base
      name. The source assumes file paths never end in `/`. */
  function FileAndDirFromPath(completePath: string): (r: FileAndDir)
    ensures completePath == "" ==> r == FileAndDir("", "")
    ensures completePath != "" && LastSlash(completePath) < 0 ==> r == FileAndDir(completePath, "")
    ensures LastSlash(completePath) >= 0 ==> r.dirPath == completePath[..LastSlash(completePath)]
    ensures completePath != "" && completePath[|completePath| - 1] != '/' ==>
              r.fileName == completePath[LastSlash(completePath) + 1..] && r.fileName != ""
    ensures LastSlash(completePath) >= 0 && completePath[|completePath| - 1] != '/' ==>
              r.dirPath + "/" + r.fileName == completePath
  {
    if completePath == "" then FileAndDir("", "")
    else
      var splitPath := Split(completePath);
      var dirArray := splitPath[..|splitPath| - 1];
      DirArrayJoin(completePath);
      if completePath[|completePath| - 1] != '/' then
        BaseOfFilePath(completePath);
        RebuildAtLastSlash(completePath);
        FileAndDir(Base(completePath), Join(dirArray))
      else
        FileAndDir(Base(completePath), Join(dirArray))
  }

  /** A path with a `/` is the text before its last `/`, the `/`, and the text after. */
  lemma {:induction false} RebuildAtLastSlash(s: string)
    ensures LastSlash(s) >= 0 ==> s == s[..LastSlash(s)] + "/" + s[LastSlash(s) + 1..]
  {
    var k := LastSlash(s);
    if k >= 0 {
      assert s == s[..k] + [s[k]] + s[k + 1..];
    }
  }

  /** There is one more piece than there are separators. */
  lemma {:induction false} SplitPieceCount(s: string)
    ensures |Split(s)| == multiset(s)['/'] + 1
    decreases |s|
  {
    if |s| > 0 {
      SplitPieceCount(s[1..]);
      assert s == [s[0]] + s[1..];
      assert multiset(s) == multiset([s[0]]) + multiset(s[1..]);
    }
  }

  /** Splitting and re-joining on `/` gives back the original string. */
  lemma {:induction false} JoinSplit(s: string)
    ensures Join(Split(s)) == s
    decreases |s|
  {
    if |s| > 0 {
      JoinSplit(s[1..]);
      JoinSplitStep(s);
    }
  }

  /** One step of `JoinSplit`: if the tail round-trips, so does the string. */
  lemma {:induction false} JoinSplitStep(s: string)
    requires |s| > 0 && Join(Split(s[1..])) == s[1..]
    ensures Join(Split(s)) == s
  {
    var tail := s[1..];
    var rest := Split(tail);
    assert s == [s[0]] + tail;
    if s[0] == '/' {
      assert Split(s) == [""] + rest;
      assert ([""] + rest)[1..] == rest;
    } else {
      assert Split(s) == [[s[0]] + rest[0]] + rest[1..];
      JoinPrepend(s[0], rest);
    }
  }

  /** Prepending a character to the first piece prepends it to the join. */
  lemma {:induction false} JoinPrepend(c: char, parts: seq<string>)
    requires |parts| >= 1
    ensures Join([[c] + parts[0]] + parts[1..]) == [c] + Join(parts)
  {
    var q := [[c] + parts[0]] + parts[1..];
    assert q[0] == [c] + parts[0];
    assert q[1..] == parts[1..];
    if |parts| > 1 {
      calc {
        Join(q);
        q[0] + "/" + Join(q[1..]);
        ([c] + parts[0]) + "/" + Join(parts[1..]);
        [c] + (parts[0] + "/" + Join(parts[1..]));
        [c] + Join(parts);
      }
    }
  }

  /** A string without `/` is a single piece. */
  lemma {:induction false} SplitNoSlash(s: string)
    requires '/' !in s
    ensures Split(s) == [s]
    decreases |s|
  {
    if |s| > 0 {
      assert '/' !in s[1..] by {
        forall i | 0 <= i < |s[1..]| ensures s[1..][i] != '/' {
          assert s[1..][i] == s[i + 1];
        }
      }
      SplitNoSlash(s[1..]);
      assert s == [s[0]] + s[1..];
    }
  }

  /** Splitting at a final separator appends the last piece. */
  lemma {:induction false} SplitLastSeparator(a: string, b: string)
    requires '/' !in b
    ensures Split(a + "/" + b) == Split(a) + [b]
    decreases |a|
  {
    if |a| == 0 {
      assert a + "/" + b == "/" + b;
      assert ("/" + b)[1..] == b;
      SplitNoSlash(b);
    } else {
      var w := a + "/" + b;
      assert w[1..] == a[1..] + "/" + b;
      SplitLastSeparator(a[1..], b);
    }
  }

  /** Joining every piece but the last yields the part before the last `/`. */
  lemma {:induction false} DirArrayJoin(s: string)
    ensures var parts := Split(s);
            Join(parts[..|parts| - 1]) == if LastSlash(s) >= 0 then s[..LastSlash(s)] else ""
  {
    var k := LastSlash(s);
    if k >= 0 {
      var a := s[..k];
      var b := s[k + 1..];
      assert '/' !in b by {
        forall i | 0 <= i < |b| ensures b[i] != '/' {
          assert b[i] == s[k + 1 + i];
        }
      }
      assert Split(s) == Split(a) + [b] by {
        RebuildAtLastSlash(s);
        SplitLastSeparator(a, b);
      }
      var parts := Split(s);
      assert parts[..|parts| - 1] == Split(a);
      assert Join(Split(a)) == a by {
        JoinSplit(a);
      }
    } else {
      assert '/' !in s by {
        forall i | 0 <= i < |s| ensures s[i] != '/' { }
      }
      SplitNoSlash(s);
    }
  }

  /** For a path that does not end in `/`, the base name is the non-empty
      part after the last `/`. */
  lemma {:induction false} BaseOfFilePath(s: string)
    requires s != "" && s[|s| - 1] != '/'
    ensures Base(s) == s[LastSlash(s) + 1..] && Base(s) != ""
  {
    assert TrimTrailingSlashes(s) == s;
    var elem := s[LastSlash(s) + 1..];
    assert s[|s| - 1] in elem;
  }

  /** The source's assumption matters: for a path ending in `/` the pieces
      never rebuild it, because the base name drops the trailing separator. */
  lemma TrailingSlashBreaksRebuild(s: string)
    requires s != "" && s[|s| - 1] == '/'
    ensures var r := FileAndDirFromPath(s); r.dirPath + "/" + r.fileName != s
  {
    var r := FileAndDirFromPath(s);
    assert r.fileName == Base(s);
    assert |r.dirPath + "/" + r.fileName| > |s|;
  }
}

=== FILE: range_size.dfy ===
/** Choosing the upload range size for a whole-file upload (`calculateRangeSize`
    and its use when the configured block size is zero). The calculation is
    stated over general limits first, then instantiated with the file
    service's own limits: 4 MiB per range and 4 TiB per file. */
module RangeSize {
  import opened Common

  /** Largest single range upload the service accepts: 4 MiB. */
  const FileMaxUploadRangeBytes: int := 4 * 1024 * 1024

  /** Largest file the service stores: 4 TiB. */
  const FileMaxSizeInBytes: int := 4 * 1024 * 1024 * 1024 * 1024

  /** Most ranges a file can be cut into at the maximum range size. */
  const FileShareMaxRanges: int := FileMaxSizeInBytes / FileMaxUploadRangeBytes

  /** The three limits the calculation depends on. */
  datatype Limits = Limits(maxRangeBytes: int, maxFileBytes: int, maxRanges: int)

  /** Limits for which the calculation is meaningful and stays inside int64,
      including the `+ 7` of the rounding step. */
  predicate ValidLimits(l: Limits)
  {
    && 0 < l.maxRangeBytes <= l.maxFileBytes <= MaxInt64 - 7
    && 0 < l.maxRanges
  }

  /** The limits the source hard-codes. */
  const ServiceLimits: Limits := Limits(FileMaxUploadRangeBytes, FileMaxSizeInBytes, FileShareMaxRanges)

  /** Go's `(rangeSize int64, err error)` pair: `rangeSize` is 0 on error. */
  datatype SizeAnswer = SizeAnswer(rangeSize: Int64, err: Option<Error>)

  /** `x & -8` on two's-complement integers: `x` with its three low bits cleared,
      i.e. the largest multiple of 8 not above `x`. */
  function ClearLow3(x: int): (r: int)
    ensures r % 8 == 0 && r <= x < r + 8
    ensures r != 0 <==> !(0 <= x < 8)
  {
    x - x % 8
  }

  /** `math.Ceil(float64(a) / float64(n))` as exact integer ceiling division. */
  function CeilDiv(a: int, n: int): (q: int)
    requires 0 <= a && 0 < n
    ensures 0 <= q <= a
    ensures n * (q - 1) < a <= n * q
  {
    CeilDivBounds(a, n);
    (a + n - 1) / n
  }

  lemma CeilDivBounds(a: int, n: int)
    requires 0 <= a && 0 < n
    ensures var q := (a + n - 1) / n; 0 <= q <= a && n * (q - 1) < a <= n * q
  {
    var q := (a + n - 1) / n;
    assert n * q <= a + n - 1 < n * q + n;
    assert n * (q - 1) == n * q - n;
    MulMonotone(n, a + 1, q);
    assert n * (a + 1) == n * a + n;
    MulMonotone(a, 1, n);
  }

  /** Multiplication by a non-negative factor is monotone. */
  lemma MulMonotone(n: int, x: int, y: int)
    requires 0 <= n
    ensures x <= y ==> n * x <= n * y
  {
    assert n * y - n * x == n * (y - x);
  }

  /** The range-size calculation over general limits. A size succeeds only as
      the maximum range size itself; a too-big file fails with FileTooLarge;
      the rounding step can fail with RangeSizeTooLarge. */
  function RangeSizeWithin(l: Limits, fileSize: Int64): (r: SizeAnswer)
    requires ValidLimits(l)
    ensures r.err.Some? ==> r.rangeSize == 0
    ensures r.err == Some(FileTooLarge) <==> fileSize > l.maxFileBytes
    ensures r.err.None? || r.err == Some(FileTooLarge) || r.err == Some(RangeSizeTooLarge)
    ensures r.err.None? ==> r.rangeSize == l.maxRangeBytes
    ensures fileSize <= l.maxRangeBytes ==> r == SizeAnswer(l.maxRangeBytes, None)
  {
    if fileSize > l.maxFileBytes then SizeAnswer(0, Some(FileTooLarge))
    else if fileSize <= l.maxRangeBytes then SizeAnswer(l.maxRangeBytes, None)
    else
      var tentative := CeilDiv(fileSize, l.maxRanges);
      assert tentative <= fileSize;
      if tentative < l.maxRangeBytes then SizeAnswer(l.maxRangeBytes, None)
      else
        var rounded := if ClearLow3(tentative) != 0 then ClearLow3(tentative + 7) else tentative;
        if rounded > l.maxRangeBytes then SizeAnswer(0, Some(RangeSizeTooLarge))
        else SizeAnswer(rounded, None)
  }

  /** With a maximum range size that is a multiple of 8, the rounding error
      happens exactly when the file is within the size limit but does not fit
      into `maxRanges` ranges of the maximum size. */
  lemma RangeSizeTooLargeExactly(l: Limits, fileSize: Int64)
    requires ValidLimits(l) && l.maxRangeBytes % 8 == 0
    ensures RangeSizeWithin(l, fileSize).err == Some(RangeSizeTooLarge) <==>
            l.maxRangeBytes < fileSize <= l.maxFileBytes && fileSize > l.maxRanges * l.maxRangeBytes
  {
    if l.maxRangeBytes < fileSize <= l.maxFileBytes {
      var m := l.maxRangeBytes;
      var n := l.maxRanges;
      var q := CeilDiv(fileSize, n);
      MulMonotone(n, m, q - 1);
      MulMonotone(n, q, m);
      if q == m {
        assert ClearLow3(q) != 0;
        assert ClearLow3(q + 7) == m;
      }
    }
  }

  /** Without that alignment the rounding can fail even for a file that fits
      exactly: two ranges of 12 bytes hold 24 bytes, yet 12 rounds up to 16. */
  lemma UnalignedLimitRejectsFittingFile()
    ensures RangeSizeWithin(Limits(12, 1000, 2), 24) == SizeAnswer(0, Some(RangeSizeTooLarge))
  {
    assert CeilDiv(24, 2) == 12;
  }

  /** `calculateRangeSize` with the service's limits: it fails, returning 0 and
      FileTooLarge, exactly for files above 4 TiB; every other size gets
      4 MiB ranges, so the range-size-too-large branch is unreachable. */
  function CalculateRangeSize(fileSize: Int64): (r: SizeAnswer)
    ensures r.err.Some? <==> fileSize > FileMaxSizeInBytes
    ensures r.err.Some? ==> r == SizeAnswer(0, Some(FileTooLarge))
    ensures r.err.None? ==> r.rangeSize == FileMaxUploadRangeBytes
  {
    assert FileShareMaxRanges * FileMaxUploadRangeBytes == FileMaxSizeInBytes;
    RangeSizeTooLargeExactly(ServiceLimits, fileSize);
    RangeSizeWithin(ServiceLimits, fileSize)
  }

  /** The range size a whole-file upload uses: the configured block size when
      it is set, otherwise the calculated one (whose error aborts the upload). */
  function UploadRangeSize(configuredBlockSize: Int64, fileSize: Int64): (r: SizeAnswer)
    ensures configuredBlockSize != 0 ==> r == SizeAnswer(configuredBlockSize, None)
    ensures configuredBlockSize == 0 ==>
              (r.err.None? <==> fileSize <= FileMaxSizeInBytes) &&
              (r.err.None? ==> r.rangeSize == FileMaxUploadRangeBytes)
  {
    if configuredBlockSize == 0 then CalculateRangeSize(fileSize)
    else SizeAnswer(configuredBlockSize, None)
  }
}
